=== FILE: README.md ===
# phantomjs-sitemap-generator: the crawl frontier in Dafny

A model of the crawl-frontier bookkeeping of `PSG`, the single-host crawler
of phantomjs-sitemap-generator. The crawler starts from one URL. For each
known URL it sends an HTTP HEAD request, and that request always goes to the
root's host name, port and path, so it reports the root's content type every
time. When that type is `text/html`, the crawler renders the URL with
PhantomJS to collect its links and folds same-host and relative links into its
URL registry. Once the cursor reaches the end of the key list, the last
`crawl()` call resolves its own promise with the number of URLs processed (no
caller receives it; see "Left out"). Unless the `sitemap` option disables it,
that call also writes a sitemap with one entry per registry key.

Everything is pure functions over immutable values. The I/O collaborators
are passed in as values:

- `Urls.UrlLib` holds Node's `url.parse` and `url.resolve` as two total
  functions. Any pair may be supplied.
- `Crawler.Env` holds two oracles. `head` gives the `content-type` header of
  the HEAD response to a request. `extract` gives the links PhantomJS finds
  on a page, or `None` when rendering fails.
- `Crawler.Run` takes one `Env` per `crawl()` call, so the answers may change
  over time.

Modules, leaf first:

- `Wrappers`: `Option` and `Result`.
- `Strings`: JavaScript `indexOf`, `split` and `join` on one character, and
  `trim` with the ECMAScript white-space set.
- `Mime`: the MIME-type extraction in `checkURL`.
- `Urls`: parse results, the root context, and link classification.
- `Frontier`: the registry `this.urls`. It is an insertion-ordered map from
  URL to `Pending`/`Visited` (`true`/`false` in the JavaScript code). This module also
  holds the link fold of `parseURL`.
- `Sitemap`: the entries and count built by `generateSitemap`.
- `Crawler`: option defaults, construction, the `crawl` step (`Step`, split
  into `Finish` and `Visit`), and `Run`, which chains the steps.

Points of the code's behaviour that the model keeps as written:

- Only the path where the type is `text/html` and links were extracted
  increments `pos` and calls `crawl()` again
  (phantomjs-sitemap-generator.js:64-76). A failed probe, a non-HTML type or a
  failed extraction marks the URL visited and ends the crawl there, with no
  result. `Visit` returns `Stalled` in these cases, with the cursor
  unchanged. `Crawler.RootNotHtmlStalls` shows the consequence: a root that
  is not HTML yields no result at all.
- The HEAD probe always targets the root's host name, port and path, never
  the URL being checked (`Crawler.ProbeRequest`,
  `Crawler.ProbeIgnoresCursor`).
- A link's `host` (name and port) is compared with the root's `hostname`
  (name only). An absolute link that spells out a port is therefore dropped
  (`Urls.PortedLinkDropped`).
- Relative links are resolved against the root URL, not against the page
  they were found on.
- The `userAgent` default is "no override" (`false` in the code). The header
  comment names a PhantomJS user-agent string instead.

## Model

| member | source | states |
|---|---|---|
| Strings.IndexOf | phantomjs-sitemap-generator.js:103 | `indexOf` is -1 exactly when the character is absent; otherwise it is the position of its first occurrence |
| Strings.Split | phantomjs-sitemap-generator.js:100 | `split(';')` gives at least one piece. No piece contains the separator, and joining the pieces restores the header |
| Strings.SplitUnique | phantomjs-sitemap-generator.js:100 | any separator-free pieces that join to the string are its split, so `Split` and `Join` are inverse |
| Strings.Trim | phantomjs-sitemap-generator.js:105 | `trim()` returns a slice of the input. Everything outside the slice is white space, and the slice neither starts nor ends with white space |
| Strings.TrimKeeps | phantomjs-sitemap-generator.js:105 | trimming keeps every non-white-space character |
| Strings.TrimOnlyRemoves | phantomjs-sitemap-generator.js:105 | trimming introduces no character |
| Mime.TypedIff | phantomjs-sitemap-generator.js:103 | `indexOf('/') > 0` holds exactly when the segment contains a slash and does not start with one |
| Mime.FirstTyped | phantomjs-sitemap-generator.js:101-108 | the loop breaks at the first segment that qualifies, or at none exactly when no segment qualifies |
| Mime.MimeType | phantomjs-sitemap-generator.js:97-112 | the probe fails with "connection error" exactly when the header is absent or empty |
| Mime.MimeTypeSpec | phantomjs-sitemap-generator.js:97-111 | for a non-empty header the type is the trimmed first qualifying segment. The probe fails with "content-type not available" exactly when no segment qualifies. A type found contains a slash, no `;`, and starts with no white space |
| Mime.FirstSegmentWins | phantomjs-sitemap-generator.js:100-107 | when the first segment qualifies, whatever follows the first `;` is ignored |
| Mime.UntypedSegmentSkipped | phantomjs-sitemap-generator.js:101-108 | a leading segment that does not qualify is skipped. The result is that of the rest of the header, or a rejection when nothing follows |
| Mime.HtmlWithParameters | phantomjs-sitemap-generator.js:66 | `text/html` followed by any `;` parameters is recognised as `text/html` |
| Mime.LeadingSlashRejected | phantomjs-sitemap-generator.js:103-110 | a header `/html` is rejected, because its only segment starts with the slash |
| Urls.Target | phantomjs-sitemap-generator.js:173-182 | a link contributes no key exactly when it is neither same-host nor relative |
| Urls.PortedLinkDropped | phantomjs-sitemap-generator.js:40 | an absolute link whose host carries a port never matches the root host name and is dropped |
| Frontier.Put | phantomjs-sitemap-generator.js:48 | assigning a key keeps the registry well formed. An existing key keeps its place and a new key goes last |
| Frontier.AddPending | phantomjs-sitemap-generator.js:176 | insert-if-absent: a present key leaves the registry unchanged. An absent key is appended as pending, and no existing key changes |
| Frontier.FoldLinks | phantomjs-sitemap-generator.js:171-183 | the fold only appends keys and never changes an existing flag. Every admitted link's key ends up present, and every new key is pending and comes from some link |
| Frontier.FoldKnownLinks | phantomjs-sitemap-generator.js:176-181 | links whose keys are all present, or that are external, leave the registry unchanged |
| Frontier.FoldAppend | phantomjs-sitemap-generator.js:171-183 | folding two link lists in turn equals folding their concatenation |
| Frontier.FoldIdempotent | phantomjs-sitemap-generator.js:171-183 | re-discovering the same links is a no-op |
| Frontier.FoldDuplicates | phantomjs-sitemap-generator.js:155-159 | listing a page's links twice discovers the same as listing them once |
| Frontier.ExternalLinkIgnored | phantomjs-sitemap-generator.js:173-183 | scope: removing an external link from a page changes nothing |
| Frontier.FoldScope | phantomjs-sitemap-generator.js:173-182 | scope: each new key is a link whose host equals the root host name, or a link with no protocol or host resolved against the root URL |
| Frontier.RelativeLinkResolvedAtRoot | phantomjs-sitemap-generator.js:178-181 | a relative link adds `resolve(root, link)`, independent of the page it came from |
| Frontier.ExampleSite | phantomjs-sitemap-generator.js:171-183 | for links `/about`, `http://example.com/about` and `http://other.com/x` on `http://example.com/`, exactly one key is added |
| Frontier.RegistrySize | phantomjs-sitemap-generator.js:49 | a well-formed registry has as many entries as listed keys |
| Frontier.DistinctCardinality | phantomjs-sitemap-generator.js:69 | a list of distinct keys has as many elements as positions |
| Sitemap.Entries | phantomjs-sitemap-generator.js:126-130 | one entry per key, in key order, each with changefreq `weekly` and priority 0.8 |
| Sitemap.Assemble | phantomjs-sitemap-generator.js:121-130 | the document names the root URL and the 600000 ms cache time. It holds one entry per listed key, in key order, each with changefreq `weekly` and priority 0.8, so its entry URLs are exactly the registry keys; for a well-formed registry there are as many entries as registry entries |
| Sitemap.Generate | phantomjs-sitemap-generator.js:118-134 | the loop builds the assembled document. Its count equals the number of listed keys, and for a well-formed registry the number of registry entries. No precondition, as in the JavaScript code |
| Crawler.Configure | phantomjs-sitemap-generator.js:51-54 | the sitemap file defaults to `sitemap.xml` only when the option is undefined. A user agent is kept only when truthy, and `verbose` defaults to false |
| Crawler.New | phantomjs-sitemap-generator.js:36-49 | succeeds exactly when the URL is non-empty and its parse has a truthy protocol and host. It fails with "url required" on an empty URL, and with "complete url required" exactly when a non-empty URL's parse lacks a truthy protocol or host. On success the root keeps the URL and the parsed host name, port and path. The registry is `{url0: pending}`, `keys = [url0]`, `pos = 0`, and the state is valid |
| Crawler.ProbeIgnoresCursor | phantomjs-sitemap-generator.js:90-97 | the probe cannot tell one URL from another: two crawlers with the same root get the same answer, whatever their registries, key lists and cursors |
| Crawler.Finish | phantomjs-sitemap-generator.js:78-84 | the result reports `pos` URLs. It has a sitemap count exactly when the sitemap is enabled, and for a valid state that count is the number of registry keys |
| Crawler.Visit | phantomjs-sitemap-generator.js:60-76 | the key under the cursor is marked visited. Only `text/html` with links available folds the links, takes a fresh key snapshot and advances `pos` by one; otherwise the registry order, `keys` and `pos` are unchanged |
| Crawler.Step | phantomjs-sitemap-generator.js:58-88 | the crawl finishes exactly when `pos` has reached the key count. It continues exactly when the probe says `text/html` and extraction succeeds, and the key list only grows |
| Crawler.StepKeepsOtherFlags | phantomjs-sitemap-generator.js:65-75 | a step changes the flag of no key other than the one under the cursor |
| Crawler.VisitKeepsValid | phantomjs-sitemap-generator.js:60-72 | visiting keeps the invariant: `keys` is the registry's key list, `pos <= |keys|`, and every key before `pos` is visited |
| Crawler.StepKeepsValid | phantomjs-sitemap-generator.js:69-70 | every step keeps that invariant, and the old key list is a prefix of the new one |
| Crawler.Run | phantomjs-sitemap-generator.js:71 | chained steps only extend the key list and never move the cursor back. A run still going after n calls has advanced exactly n times |
| Crawler.RunKeepsValid | phantomjs-sitemap-generator.js:58-88 | every state a run reaches from a valid one is valid |
| Crawler.FinishedIsLastStep | phantomjs-sitemap-generator.js:80-82 | a finished run reports `urls = pos`, and a sitemap count exactly when enabled |
| Crawler.FinishedCountsEveryKey | phantomjs-sitemap-generator.js:80-82 | on termination every key is visited. The URL count and the sitemap count both equal the number of registry keys |
| Crawler.RootNotHtmlStalls | phantomjs-sitemap-generator.js:64-76 | if the root's probe is rejected or not `text/html`, the crawl stalls at once: root visited, `pos = 0`, no result |

## Left out

- The HTTP plumbing of `checkURL`. The status code is ignored by the code as
  well. A connection failure raises an `error` event the code does not
  handle, so only the response's `content-type` header is modelled.
- PhantomJS: creating the instance, opening the page and evaluating
  `document.links`. The `Env.extract` oracle returns the links or a failure.
  The code ignores the status returned by `page.open`, and so does the model.
- Promises, `notify` progress events and verbose logging. The recursive
  `crawl()` is not chained to the first call's promise, so in the code the
  caller's promise never receives the result. `Finished` carries the value
  that the last `crawl()` call resolves with.
- The internals of `url.parse` and `url.resolve`. They are supplied as
  arbitrary functions.
- XML serialisation and `fs.writeFileSync`. `Finished` carries the document
  that would be written.
- `Object.keys` lists integer-like keys first, and a `__proto__` key is
  special. Both are ignored: registry keys are URLs, kept in insertion order.
- Arguments that are not strings: a missing or non-string `url0`, and a
  `sitemap` option of `true` or a number. `url0 = ""` stands for every falsy
  URL.
- The priority 0.8 is kept as the constant `Tenths(8)`, not as a float.
- examples/basic.js, which is only a command-line wrapper.

=== FILE: crawler.dfy ===
/** The `PSG` crawler: construction from a starting URL and options, the
    crawl step (`crawl` with its `checkURL`/`parseURL` continuations), and a
    driver that chains steps the way the recursive `crawl()` calls do. */
module Crawler {
  import opened Wrappers
  import opened Urls
  import opened Mime
  import opened Frontier
  import opened Sitemap

  /** The `sitemap` option: `false`/`null` disables output, a string names the file. */
  datatype SitemapOption = Disabled | File(name: string)

  /** Options as passed by the caller; `None` is an option left undefined. */
  datatype Options = Options(sitemap: Option<SitemapOption>, userAgent: Option<string>, verbose: bool)

  /** Options after defaults are applied. `userAgent` is `None` when no
      override is sent (`PSG` stores `false`). */
  datatype Config = Config(sitemap: SitemapOption, userAgent: Option<string>, verbose: bool)

  const DefaultSitemapFile: string := "sitemap.xml"

  /** The option defaults of the constructor. */
  function Configure(options: Option<Options>): (cfg: Config)
    ensures options.None? || options.value.sitemap.None? ==> cfg.sitemap == File(DefaultSitemapFile)
    ensures options.Some? && options.value.sitemap.Some? ==> cfg.sitemap == options.value.sitemap.value
    ensures cfg.userAgent.Some? <==> options.Some? && Truthy(options.value.userAgent)
    ensures cfg.userAgent.Some? ==> cfg.userAgent == options.value.userAgent
    ensures cfg.verbose <==> options.Some? && options.value.verbose
  {
    match options
    case None => Config(File(DefaultSitemapFile), None, false)
    case Some(o) =>
      Config(
        if o.sitemap.Some? then o.sitemap.value else File(DefaultSitemapFile),
        if Truthy(o.userAgent) then o.userAgent else None,
        o.verbose)
  }

  /** `if (this.sitemap)`: output is on for a non-empty file name. */
  predicate SitemapEnabled(cfg: Config) {
    cfg.sitemap.File? && cfg.sitemap.name != ""
  }

  /** A crawler instance: the root context, the registry `urls`, the key
      snapshot `keys` taken by `Object.keys(urls)`, the cursor `pos` and the
      configuration. */
  datatype Crawler = Crawler(root: Root, urls: Registry, keys: seq<string>, pos: nat, config: Config)

  /** The invariant of a crawler between steps: the registry is well formed,
      `keys` is its current key list, the cursor is within it, and every key
      before the cursor has been visited. */
  ghost predicate Valid(c: Crawler) {
    && Frontier.Valid(c.urls)
    && c.keys == c.urls.order
    && c.pos <= |c.keys|
    && forall i :: 0 <= i < c.pos ==> c.urls.status[c.keys[i]] == Visited
  }

  /** The errors the constructor throws. */
  datatype ConstructError = UrlRequired | CompleteUrlRequired
  {
    function Message(): string {
      match this
      case UrlRequired => "url required"
      case CompleteUrlRequired => "complete url required (with scheme)"
    }
  }

  /** `new PSG(url0, options)`; an empty string is the falsy `url0`. */
  function New(lib: UrlLib, url0: string, options: Option<Options>): (r: Result<Crawler, ConstructError>)
    ensures r.Success? <==>
              url0 != "" && Truthy(lib.parse(url0).protocol) && Truthy(lib.parse(url0).host)
    ensures url0 == "" ==> r == Failure(UrlRequired)
    ensures url0 != "" ==>
              (r == Failure(CompleteUrlRequired) <==>
                 !Truthy(lib.parse(url0).protocol) || !Truthy(lib.parse(url0).host))
    ensures r.Success? ==>
              && Valid(r.value)
              && r.value.urls.status == map[url0 := Pending]
              && r.value.keys == [url0]
              && r.value.pos == 0
              && r.value.root.url == url0
              && r.value.root.hostname == lib.parse(url0).hostname
              && r.value.root.port == lib.parse(url0).port
              && r.value.root.path == lib.parse(url0).path
              && r.value.config == Configure(options)
  {
    if url0 == "" then Failure(UrlRequired)
    else
      var parsed := lib.parse(url0);
      if !Truthy(parsed.protocol) || !Truthy(parsed.host) then Failure(CompleteUrlRequired)
      else
        var urls := Put(Empty, url0, Pending);
        Success(Crawler(RootOf(url0, parsed), urls, urls.order, 0, Configure(options)))
  }

  /** The HEAD request `checkURL` sends. */
  datatype Request = Request(verb: string, host: Option<string>, port: Option<string>, path: Option<string>)

  /** The probe always targets the ROOT's host name, port and path, whichever
      URL is being checked. */
  function ProbeRequest(root: Root): Request
  {
    Request("HEAD", root.hostname, root.port, root.path)
  }

  /** The outside world of one step: the `content-type` header of the HEAD
      response to a request (`None` when it has none), and the links PhantomJS
      finds on a page opened with an optional user agent (`None` when
      rendering fails). */
  datatype Env = Env(
    head: Request -> Option<string>,
    extract: (string, Option<string>) -> Option<seq<string>>)

  /** Why a step ends the crawl without a result. */
  datatype Halt = ProbeRejected(error: ProbeError) | NotHtml(mime: string) | ExtractionFailed

  /** The value the final `crawl()` resolves with: `{urls, sitemap?}`. */
  datatype CrawlResult = CrawlResult(urls: nat, sitemap: Option<nat>)

  /** The state after one step. `Running`: the next `crawl()` is due.
      `Stalled`: no further `crawl()` is scheduled and no result is produced.
      `Finished`: the result, and the sitemap document written if enabled. */
  datatype Outcome =
    | Running(state: Crawler)
    | Stalled(state: Crawler, reason: Halt)
    | Finished(state: Crawler, result: CrawlResult, written: Option<Document>)

  /** The crawl when the cursor has reached the end of the key list: the
      result counts the processed URLs and, when output is enabled, the
      sitemap entries. */
  function Finish(c: Crawler): (o: Outcome)
    ensures o.Finished? && o.state == c && o.result.urls == c.pos
    ensures o.result.sitemap.Some? <==> SitemapEnabled(c.config)
    ensures o.written == (if SitemapEnabled(c.config) then Some(Assemble(c.root.url, c.urls)) else None)
    ensures Valid(c) && o.result.sitemap.Some? ==> o.result.sitemap.value == |c.urls.status|
  {
    var enabled := SitemapEnabled(c.config);
    var doc := Assemble(c.root.url, c.urls);
    Finished(c, CrawlResult(c.pos, if enabled then Some(|doc.urls|) else None), if enabled then Some(doc) else None)
  }

  /** The crawl at the key under the cursor, given what the probe and the
      link extraction report: mark the key visited; on `text/html` with links
      available, fold them into the registry, take a fresh key snapshot and
      move the cursor; otherwise stop where the cursor is. */
  function Visit(lib: UrlLib, c: Crawler, probe: Result<string, ProbeError>, links: Option<seq<string>>): (o: Outcome)
    requires c.pos < |c.keys|
    ensures c.keys[c.pos] in o.state.urls.status && o.state.urls.status[c.keys[c.pos]] == Visited
    ensures o.Running? <==> probe == Success(Html) && links.Some?
    ensures o.Running? ==>
              && o.state.urls == FoldLinks(lib, c.root, Put(c.urls, c.keys[c.pos], Visited), links.value)
              && o.state.keys == o.state.urls.order
              && o.state.pos == c.pos + 1
    ensures o.Stalled? ==>
              && o.state.urls == Put(c.urls, c.keys[c.pos], Visited)
              && o.state.keys == c.keys
              && o.state.pos == c.pos
    ensures o.Stalled? ==>
              || (probe.Failure? && o.reason == ProbeRejected(probe.error))
              || (probe.Success? && probe.value != Html && o.reason == NotHtml(probe.value))
              || (probe == Success(Html) && o.reason == ExtractionFailed)
    ensures !o.Finished? && c.urls.order <= o.state.urls.order
    ensures o.state.root == c.root && o.state.config == c.config
  {
    var marked := c.(urls := Put(c.urls, c.keys[c.pos], Visited));
    match probe
    case Failure(e) => Stalled(marked, ProbeRejected(e))
    case Success(mime) =>
      if mime != Html then Stalled(marked, NotHtml(mime))
      else
        match links
        case None => Stalled(marked, ExtractionFailed)
        case Some(found) =>
          var urls := FoldLinks(lib, c.root, marked.urls, found);
          Running(marked.(urls := urls, keys := urls.order, pos := c.pos + 1))
  }

  /** What the HEAD probe reports for this crawler: always the root's request. */
  function Probe(env: Env, c: Crawler): Result<string, ProbeError> {
    MimeType(env.head(ProbeRequest(c.root)))
  }

  /** The probe cannot tell the URLs of a crawl apart: two crawlers with the
      same root get the same answer, whatever their registries, key lists and
      cursors. */
  lemma ProbeIgnoresCursor(env: Env, c: Crawler, d: Crawler)
    requires c.root == d.root
    ensures Probe(env, c) == Probe(env, d)
  {
  }

  /** One call of `crawl()` with its continuations. */
  function Step(lib: UrlLib, env: Env, c: Crawler): (o: Outcome)
    ensures o.Finished? <==> c.pos >= |c.keys|
    ensures o.Finished? ==> o.state == c && o.result.urls == c.pos
    ensures o.Running? <==>
              && c.pos < |c.keys|
              && Probe(env, c) == Success(Html)
              && env.extract(c.keys[c.pos], c.config.userAgent).Some?
    ensures o.Running? ==> o.state.pos == c.pos + 1 && o.state.keys == o.state.urls.order
    ensures !o.Running? ==> o.state.pos == c.pos && o.state.keys == c.keys
    ensures c.urls.order <= o.state.urls.order
    ensures o.state.root == c.root && o.state.config == c.config
  {
    if c.pos >= |c.keys| then Finish(c)
    else Visit(lib, c, Probe(env, c), env.extract(c.keys[c.pos], c.config.userAgent))
  }

  /** A step changes the flag of the key under the cursor and of no other key. */
  lemma StepKeepsOtherFlags(lib: UrlLib, env: Env, c: Crawler, k: string)
    requires k in c.urls.status && (c.pos >= |c.keys| || k != c.keys[c.pos])
    ensures k in Step(lib, env, c).state.urls.status
    ensures Step(lib, env, c).state.urls.status[k] == c.urls.status[k]
  {
    if c.pos < |c.keys| {
      var marked := Put(c.urls, c.keys[c.pos], Visited);
      assert marked.status[k] == c.urls.status[k];
    }
  }

  /** Visiting the key under the cursor keeps the crawler invariant, whatever
      the probe and the extraction report. */
  lemma VisitKeepsValid(lib: UrlLib, c: Crawler, probe: Result<string, ProbeError>, links: Option<seq<string>>)
    requires Valid(c) && c.pos < |c.keys|
    ensures Valid(Visit(lib, c, probe, links).state)
    ensures c.keys <= Visit(lib, c, probe, links).state.keys
  {
    var o := Visit(lib, c, probe, links);
    var url := c.keys[c.pos];
    var marked := Put(c.urls, url, Visited);
    assert marked.order == c.urls.order;
    forall i | 0 <= i < c.pos + 1
      ensures marked.status[c.keys[i]] == Visited
    {
      if i < c.pos {
        assert c.keys[i] != url;
      }
    }
    if o.Running? {
      var urls := o.state.urls;
      assert c.keys <= urls.order;
      forall i | 0 <= i < c.pos + 1
        ensures urls.status[urls.order[i]] == Visited
      {
        assert urls.order[i] == c.keys[i];
      }
    }
  }

  /** Every step keeps the crawler invariant; in particular the cursor never
      passes the end of the key list, because the list is recomputed (and can
      only grow) before the cursor moves. */
  lemma StepKeepsValid(lib: UrlLib, env: Env, c: Crawler)
    requires Valid(c)
    ensures Valid(Step(lib, env, c).state)
    ensures c.keys <= Step(lib, env, c).state.keys
  {
    if c.pos < |c.keys| {
      VisitKeepsValid(lib, c, Probe(env, c), env.extract(c.keys[c.pos], c.config.userAgent));
    }
  }

  /** The chain of `crawl()` calls, one environment per call, until a call
      finishes or stalls or the environments run out (then the crawl is
      still running). */
  function Run(lib: UrlLib, envs: seq<Env>, c: Crawler): (o: Outcome)
    ensures c.urls.order <= o.state.urls.order
    ensures c.pos <= o.state.pos <= c.pos + |envs|
    ensures o.Running? ==> o.state.pos == c.pos + |envs|
    ensures o.Finished? ==> o.state.pos >= |o.state.keys|
    ensures o.state.root == c.root && o.state.config == c.config
    decreases |envs|
  {
    if |envs| == 0 then Running(c)
    else
      match Step(lib, envs[0], c)
      case Running(next) => Run(lib, envs[1..], next)
      case Stalled(state, reason) => Stalled(state, reason)
      case Finished(state, result, written) => Finished(state, result, written)
  }

  /** Every crawler a run reaches from a valid one is valid. */
  lemma {:induction false} RunKeepsValid(lib: UrlLib, envs: seq<Env>, c: Crawler)
    requires Valid(c)
    ensures Valid(Run(lib, envs, c).state)
    ensures c.keys <= Run(lib, envs, c).state.keys
    decreases |envs|
  {
    if |envs| > 0 {
      StepKeepsValid(lib, envs[0], c);
      var o := Step(lib, envs[0], c);
      if o.Running? {
        RunKeepsValid(lib, envs[1..], o.state);
      }
    }
  }

  /** A crawl that finishes has visited every key it discovered, and reports
      as many processed URLs (and sitemap entries) as the registry holds. */
  lemma FinishedCountsEveryKey(lib: UrlLib, envs: seq<Env>, c: Crawler)
    requires Valid(c) && Run(lib, envs, c).Finished?
    ensures var o := Run(lib, envs, c);
      && o.state.pos == |o.state.keys|
      && (forall k :: k in o.state.urls.status ==> o.state.urls.status[k] == Visited)
      && o.result.urls == |o.state.urls.status|
      && (o.result.sitemap.Some? ==> o.result.sitemap.value == |o.state.urls.status|)
  {
    RunKeepsValid(lib, envs, c);
    var o := Run(lib, envs, c);
    var f := o.state;
    RegistrySize(f.urls);
    FinishedIsLastStep(lib, envs, c);
    forall k | k in f.urls.status
      ensures f.urls.status[k] == Visited
    {
      var i :| 0 <= i < |f.keys| && f.keys[i] == k;
    }
  }

  /** A finished run ends with the step that found the cursor at the end. */
  lemma {:induction false} FinishedIsLastStep(lib: UrlLib, envs: seq<Env>, c: Crawler)
    requires Run(lib, envs, c).Finished?
    ensures var o := Run(lib, envs, c);
      && o.result.urls == o.state.pos
      && (o.result.sitemap.Some? <==> SitemapEnabled(o.state.config))
      && (Valid(o.state) && o.result.sitemap.Some? ==> o.result.sitemap.value == |o.state.urls.status|)
    decreases |envs|
  {
    if Step(lib, envs[0], c).Running? {
      FinishedIsLastStep(lib, envs[1..], Step(lib, envs[0], c).state);
    }
  }

  /** When the root is not reported as `text/html` (or its probe is
      rejected), the crawl stops at once: the root is marked visited, the
      cursor stays at 0, and no result is ever produced. */
  lemma RootNotHtmlStalls(lib: UrlLib, url0: string, options: Option<Options>, c: Crawler, env: Env, more: seq<Env>)
    requires New(lib, url0, options) == Success(c)
    requires Probe(env, c) != Success(Html)
    ensures var o := Run(lib, [env] + more, c);
      && o.Stalled?
      && o.state.pos == 0
      && o.state.keys == [url0]
      && o.state.urls.status == map[url0 := Visited]
  {
    assert c.urls.status == map[url0 := Pending] && c.keys == [url0] && c.pos == 0;
    var o := Visit(lib, c, Probe(env, c), env.extract(url0, c.config.userAgent));
    assert Step(lib, env, c) == o;
    assert o.Stalled?;
    assert o.state.urls.status == map[url0 := Visited];
    assert ([env] + more)[0] == env;
  }
}

=== FILE: frontier.dfy ===
/** The URL registry of the crawler (`this.urls`): a JavaScript object used as
    an insertion-ordered map from URL to a pending/visited flag, and the fold
    of a page's links into it performed by `parseURL`. */
module Frontier {
  import opened Wrappers
  import opened Urls

  /** `true` in the JavaScript code is `Pending` (discovered, not processed yet),
      `false` is `Visited` (processing attempted). */
  datatype Status = Pending | Visited

  /** The registry: `status` maps every key to its flag and `order` lists
      the keys in insertion order, the order `Object.keys` and `for..in`
      report them in. */
  datatype Registry = Registry(order: seq<string>, status: map<string, Status>)

  /** Keys are listed once each, and exactly the keys of `status` are listed. */
  ghost predicate Valid(reg: Registry) {
    && (forall i, j :: 0 <= i < j < |reg.order| ==> reg.order[i] != reg.order[j])
    && (forall k :: k in reg.status <==> k in reg.order)
  }

  /** `after` extends `before`: no key is lost or reordered, and no existing
      key changes its flag. */
  ghost predicate Grows(before: Registry, after: Registry) {
    && before.order <= after.order
    && (forall k :: k in before.status ==> k in after.status && after.status[k] == before.status[k])
  }

  /** The registry with no key (`{}`). */
  const Empty: Registry := Registry([], map[])

  /** `urls[key] = flag`: an existing key keeps its place, a new one goes last. */
  function Put(reg: Registry, key: string, flag: Status): (r: Registry)
    ensures Valid(reg) ==> Valid(r)
    ensures r.status == reg.status[key := flag]
    ensures key in reg.status ==> r.order == reg.order
    ensures key !in reg.status ==> r.order == reg.order + [key]
  {
    if key in reg.status then Registry(reg.order, reg.status[key := flag])
    else Registry(reg.order + [key], reg.status[key := flag])
  }

  /** `if (!urls.hasOwnProperty(key)) urls[key] = true`. */
  function AddPending(reg: Registry, key: string): (r: Registry)
    ensures Valid(reg) ==> Valid(r)
    ensures Grows(reg, r)
    ensures key in r.status
    ensures key in reg.status ==> r == reg
    ensures key !in reg.status ==> r.order == reg.order + [key] && r.status[key] == Pending
  {
    if key in reg.status then reg else Put(reg, key, Pending)
  }

  /** A key that `FoldLinks` may add for one of `links`. */
  ghost predicate Discovered(lib: UrlLib, root: Root, links: seq<string>, key: string) {
    exists i :: 0 <= i < |links| && Target(lib, root, links[i]) == Some(key)
  }

  /** The loop over a page's links in `parseURL`: every same-host or
      relative link is added as pending unless its key is already present. */
  function FoldLinks(lib: UrlLib, root: Root, reg: Registry, links: seq<string>): (r: Registry)
    ensures Valid(reg) ==> Valid(r)
    ensures Grows(reg, r)
    ensures forall i :: 0 <= i < |links| && Target(lib, root, links[i]).Some? ==>
              Target(lib, root, links[i]).value in r.status
    ensures forall k :: k in r.status && k !in reg.status ==>
              r.status[k] == Pending && Discovered(lib, root, links, k)
    decreases |links|
  {
    if |links| == 0 then reg
    else
      var next := match Target(lib, root, links[0])
        case None => reg
        case Some(key) => AddPending(reg, key);
      var r := FoldLinks(lib, root, next, links[1..]);
      FoldHead(lib, root, reg, links, next, r);
      r
  }

  /** The step from the tail's fold to the whole list's fold: what the first
      link adds, followed by what the rest adds. */
  lemma FoldHead(lib: UrlLib, root: Root, reg: Registry, links: seq<string>, next: Registry, r: Registry)
    requires |links| > 0
    requires next == match Target(lib, root, links[0])
               case None => reg
               case Some(key) => AddPending(reg, key)
    requires Grows(next, r)
    requires forall i :: 0 <= i < |links[1..]| && Target(lib, root, links[1..][i]).Some? ==>
               Target(lib, root, links[1..][i]).value in r.status
    requires forall k :: k in r.status && k !in next.status ==>
               r.status[k] == Pending && Discovered(lib, root, links[1..], k)
    ensures Grows(reg, r)
    ensures forall i :: 0 <= i < |links| && Target(lib, root, links[i]).Some? ==>
              Target(lib, root, links[i]).value in r.status
    ensures forall k :: k in r.status && k !in reg.status ==>
              r.status[k] == Pending && Discovered(lib, root, links, k)
  {
    forall i | 0 <= i < |links| && Target(lib, root, links[i]).Some?
      ensures Target(lib, root, links[i]).value in r.status
    {
      if i > 0 {
        assert links[i] == links[1..][i - 1];
      }
    }
    forall k | k in r.status && k !in reg.status
      ensures r.status[k] == Pending && Discovered(lib, root, links, k)
    {
      if k in next.status {
        assert Target(lib, root, links[0]) == Some(k);
      } else {
        var i :| 0 <= i < |links[1..]| && Target(lib, root, links[1..][i]) == Some(k);
        assert links[i + 1] == links[1..][i];
      }
    }
  }

  /** Links whose keys are all present already (re-discovered pages) or that
      are external leave the registry exactly as it was. */
  lemma {:induction false} FoldKnownLinks(lib: UrlLib, root: Root, reg: Registry, links: seq<string>)
    requires forall i :: 0 <= i < |links| && Target(lib, root, links[i]).Some? ==>
               Target(lib, root, links[i]).value in reg.status
    ensures FoldLinks(lib, root, reg, links) == reg
    decreases |links|
  {
    if |links| > 0 {
      assert forall i :: 1 <= i < |links| ==> links[i] == links[1..][i - 1];
      FoldKnownLinks(lib, root, reg, links[1..]);
    }
  }

  /** Folding two lists of links in turn is folding their concatenation. */
  lemma {:induction false} FoldAppend(lib: UrlLib, root: Root, reg: Registry, a: seq<string>, b: seq<string>)
    ensures FoldLinks(lib, root, reg, a + b) == FoldLinks(lib, root, FoldLinks(lib, root, reg, a), b)
    decreases |a|
  {
    if |a| > 0 {
      assert (a + b)[0] == a[0];
      assert (a + b)[1..] == a[1..] + b;
      var next := match Target(lib, root, a[0])
        case None => reg
        case Some(key) => AddPending(reg, key);
      FoldAppend(lib, root, next, a[1..], b);
    } else {
      assert a + b == b;
    }
  }

  /** Folding the same links a second time changes nothing. */
  lemma FoldIdempotent(lib: UrlLib, root: Root, reg: Registry, links: seq<string>)
    ensures FoldLinks(lib, root, FoldLinks(lib, root, reg, links), links) == FoldLinks(lib, root, reg, links)
  {
    FoldKnownLinks(lib, root, FoldLinks(lib, root, reg, links), links);
  }

  /** A page listing its links twice over discovers what it discovers listing them once. */
  lemma FoldDuplicates(lib: UrlLib, root: Root, reg: Registry, links: seq<string>)
    ensures FoldLinks(lib, root, reg, links + links) == FoldLinks(lib, root, reg, links)
  {
    FoldAppend(lib, root, reg, links, links);
    FoldIdempotent(lib, root, reg, links);
  }

  /** Scope: removing an external link from a page changes nothing. */
  lemma ExternalLinkIgnored(lib: UrlLib, root: Root, reg: Registry, a: seq<string>, x: string, b: seq<string>)
    requires Classify(lib, root, x) == External
    ensures FoldLinks(lib, root, reg, a + [x] + b) == FoldLinks(lib, root, reg, a + b)
  {
    FoldAppend(lib, root, reg, a + [x], b);
    FoldAppend(lib, root, reg, a, [x]);
    FoldAppend(lib, root, reg, a, b);
    assert FoldLinks(lib, root, FoldLinks(lib, root, reg, a), [x]) == FoldLinks(lib, root, reg, a);
  }

  /** Scope: every key a page adds is one of its links whose host equals the
      root host name, taken verbatim, or one of its links with neither
      protocol nor host, resolved against the root url. */
  lemma FoldScope(lib: UrlLib, root: Root, reg: Registry, links: seq<string>, k: string)
    requires k in FoldLinks(lib, root, reg, links).status && k !in reg.status
    ensures exists i :: 0 <= i < |links| &&
              (|| (lib.parse(links[i]).host == root.hostname && k == links[i])
               || (!Truthy(lib.parse(links[i]).protocol) && !Truthy(lib.parse(links[i]).host)
                   && k == lib.resolve(root.url, links[i])))
  {
    var i :| 0 <= i < |links| && Target(lib, root, links[i]) == Some(k);
    assert 0 <= i < |links|;
  }

  /** Distinct keys: a valid registry has as many entries as listed keys. */
  lemma RegistrySize(reg: Registry)
    requires Valid(reg)
    ensures |reg.status| == |reg.order|
  {
    assert reg.status.Keys == set k | k in reg.order;
    DistinctCardinality(reg.order);
  }

  /** A duplicate-free sequence has as many distinct elements as positions. */
  lemma {:induction false} DistinctCardinality(s: seq<string>)
    requires forall i, j :: 0 <= i < j < |s| ==> s[i] != s[j]
    ensures |set k | k in s| == |s|
  {
    if |s| > 0 {
      var init := s[..|s| - 1];
      DistinctCardinality(init);
      assert (set k | k in s) == (set k | k in init) + {s[|s| - 1]};
      assert s[|s| - 1] !in init;
    }
  }

  /** A relative link contributes its resolution against the root url,
      whichever page it was found on (the fold is never told the page). */
  lemma RelativeLinkResolvedAtRoot(lib: UrlLib, root: Root, reg: Registry, link: string)
    requires Classify(lib, root, link) == Relative
    ensures FoldLinks(lib, root, reg, [link]) == AddPending(reg, lib.resolve(root.url, link))
  {
    assert [link][1..] == [];
  }

  /** A root `http://example.com/` whose page links to `/about`,
      `http://example.com/about` and `http://other.com/x`: when `/about`
      resolves to the second link, the registry gains exactly that one key;
      the external link is dropped. */
  lemma ExampleSite(lib: UrlLib, root: Root)
    requires root.url == "http://example.com/" && root.hostname == Some("example.com")
    requires lib.parse("/about").protocol == None && lib.parse("/about").host == None
    requires lib.resolve(root.url, "/about") == "http://example.com/about"
    requires lib.parse("http://example.com/about").host == Some("example.com")
    requires lib.parse("http://other.com/x").host == Some("other.com")
    requires lib.parse("http://other.com/x").protocol == Some("http:")
    ensures var reg := Registry([root.url], map[root.url := Visited]);
      FoldLinks(lib, root, reg, ["/about", "http://example.com/about", "http://other.com/x"])
        == Registry([root.url, "http://example.com/about"],
                    map[root.url := Visited, "http://example.com/about" := Pending])
  {
    var reg := Registry([root.url], map[root.url := Visited]);
    var about := "http://example.com/about";
    var links := ["/about", about, "http://other.com/x"];
    assert Classify(lib, root, links[0]) == Relative;
    assert Classify(lib, root, links[1]) == SameHost;
    assert Classify(lib, root, links[2]) == External;
    var r1 := AddPending(reg, about);
    assert FoldLinks(lib, root, reg, links) == FoldLinks(lib, root, r1, links[1..]);
    assert FoldLinks(lib, root, r1, links[1..]) == FoldLinks(lib, root, r1, links[2..]);
    assert FoldLinks(lib, root, r1, links[2..]) == FoldLinks(lib, root, r1, []);
  }
}

=== FILE: mime.dfy ===
/** The MIME-type extraction performed by `checkURL` on the `content-type`
    header of the HEAD response. */
module Mime {
  import opened Wrappers
  import opened Strings

  /** Why a probe is rejected; `Message` gives the error string `checkURL` reports. */
  datatype ProbeError = ConnectionError | ContentTypeNotAvailable
  {
    function Message(): string {
      match this
      case ConnectionError => "connection error"
      case ContentTypeNotAvailable => "content-type not available"
    }
  }

  /** A header segment is taken as the MIME type when `indexOf('/') > 0`. */
  predicate Typed(segment: string) {
    IndexOf(segment, '/') > 0
  }

  /** `Typed` in plain terms: the segment contains a slash and does not start with one. */
  lemma TypedIff(segment: string)
    ensures Typed(segment) <==> '/' in segment && segment[0] != '/'
  {
  }

  /** Segment `i` is the first one the extraction loop stops at. */
  ghost predicate FirstTypedAt(segments: seq<string>, i: int) {
    && 0 <= i < |segments|
    && Typed(segments[i])
    && forall j :: 0 <= j < i ==> !Typed(segments[j])
  }

  /** No segment names a type, so the loop runs to the end without a match. */
  ghost predicate NoneTyped(segments: seq<string>) {
    forall j :: 0 <= j < |segments| ==> !Typed(segments[j])
  }

  /** The index at which the loop over the segments breaks, if it does. */
  function FirstTyped(segments: seq<string>): (r: Option<nat>)
    ensures r.Some? ==> FirstTypedAt(segments, r.value)
    ensures r.None? <==> NoneTyped(segments)
  {
    if |segments| == 0 then None
    else if Typed(segments[0]) then Some(0)
    else match FirstTyped(segments[1..])
      case None => None
      case Some(k) =>
        assert forall j :: 1 <= j < k + 1 ==> segments[j] == segments[1..][j - 1];
        Some(k + 1)
  }

  /** MIME type named by a `content-type` header, or the rejection `checkURL`
      issues. `None` is a response without the header; an empty header is
      falsy in JavaScript and is rejected the same way. */
  function MimeType(header: Option<string>): (r: Result<string, ProbeError>)
    ensures r == Failure(ConnectionError) <==> header.None? || header.value == ""
  {
    match header
    case None => Failure(ConnectionError)
    case Some(h) =>
      if h == "" then Failure(ConnectionError)
      else
        match FirstTyped(Split(h, ';'))
        case None => Failure(ContentTypeNotAvailable)
        case Some(i) => Success(Trim(Split(h, ';')[i]))
  }

  /** For a present, non-empty header: the type is the first `;`-segment
      whose `indexOf('/')` is positive, trimmed, and the probe fails with
      `content-type not available` exactly when no segment qualifies. The
      type found contains a slash, no `;`, and starts with no white space. */
  lemma MimeTypeSpec(h: string)
    requires h != ""
    ensures MimeType(Some(h)) == Failure(ContentTypeNotAvailable) <==> NoneTyped(Split(h, ';'))
    ensures MimeType(Some(h)).Success? ==>
              exists i :: FirstTypedAt(Split(h, ';'), i) && MimeType(Some(h)).value == Trim(Split(h, ';')[i])
    ensures MimeType(Some(h)).Success? ==>
              var t := MimeType(Some(h)).value;
              '/' in t && ';' !in t && !IsTrimmable(t[0])
  {
    var segments := Split(h, ';');
    match FirstTyped(segments)
    case None =>
    case Some(i) =>
      var t := Trim(segments[i]);
      assert MimeType(Some(h)) == Success(t);
      assert FirstTypedAt(segments, i);
      TrimKeeps(segments[i], '/');
      if ';' in t {
        TrimOnlyRemoves(segments[i], ';');
      }
  }

  /** The MIME type that makes the crawler parse a page for links. */
  const Html: string := "text/html"

  /** `MimeType` read off a known split of a non-empty header. */
  lemma MimeOfSplit(h: string, segments: seq<string>)
    requires h != "" && Split(h, ';') == segments
    ensures FirstTyped(segments).None? ==> MimeType(Some(h)) == Failure(ContentTypeNotAvailable)
    ensures FirstTyped(segments).Some? ==>
              MimeType(Some(h)) == Success(Trim(segments[FirstTyped(segments).value]))
  {
  }

  /** `text/html` has nothing to trim. */
  lemma TrimHtml()
    ensures Trim(Html) == Html
  {
    assert TrimStart(Html) == Html by { assert !IsTrimmable('t'); }
    assert TrimEnd(Html) == Html by { assert !IsTrimmable('l'); }
  }

  lemma TypedHtml()
    ensures Typed(Html) && ';' !in Html
  {
    HtmlSlash();
    SlashAt(Html, 4);
  }

  /** Where the slash of `text/html` sits. */
  lemma HtmlSlash()
    ensures Html[4] == '/' && '/' !in Html[..4] && ';' !in Html
  {
  }

  /** A segment whose first slash sits after position 0 is typed. */
  lemma SlashAt(segment: string, k: nat)
    requires 0 < k < |segment| && segment[k] == '/' && '/' !in segment[..k]
    ensures Typed(segment)
  {
    assert IndexOf(segment, '/') == k;
  }

  /** Parameters after `text/html` (`; charset=utf-8`, say) are ignored. */
  lemma HtmlWithParameters(parameters: string)
    ensures MimeType(Some(Html + [';'] + parameters)) == Success(Html)
  {
    TypedHtml();
    FirstSegmentWins(Html, parameters);
    TrimHtml();
  }

  /** Splitting `p;rest` gives `p` followed by the pieces of `rest`. */
  lemma SplitCons(p: string, rest: string)
    requires ';' !in p
    ensures Split(p + [';'] + rest, ';') == [p] + Split(rest, ';')
  {
    var parts := [p] + Split(rest, ';');
    assert parts[1..] == Split(rest, ';');
    forall j | 0 <= j < |parts|
      ensures ';' !in parts[j]
    {
      if j > 0 {
        assert parts[j] == Split(rest, ';')[j - 1];
      }
    }
    SplitUnique(p + [';'] + rest, ';', parts);
  }

  /** The first `;`-segment decides as soon as it names a type, whatever follows. */
  lemma FirstSegmentWins(t: string, rest: string)
    requires ';' !in t && Typed(t)
    ensures MimeType(Some(t + [';'] + rest)) == Success(Trim(t))
  {
    SplitCons(t, rest);
    var segments := [t] + Split(rest, ';');
    assert FirstTyped(segments) == Some(0);
    MimeOfSplit(t + [';'] + rest, segments);
  }

  /** A leading segment that names no type (a parameter, say) is skipped:
      the header is read as if it began after the first `;`. */
  lemma UntypedSegmentSkipped(p: string, rest: string)
    requires ';' !in p && !Typed(p)
    ensures rest != "" ==> MimeType(Some(p + [';'] + rest)) == MimeType(Some(rest))
    ensures rest == "" ==> MimeType(Some(p + [';'] + rest)) == Failure(ContentTypeNotAvailable)
  {
    var h := p + [';'] + rest;
    SplitCons(p, rest);
    FirstTypedShift(p, Split(rest, ';'));
    assert h != "" by { assert h[|p|] == ';'; }
    MimeOfSplit(h, [p] + Split(rest, ';'));
    if rest == "" {
      SplitUnique(rest, ';', [""]);
      assert !Typed("");
    } else {
      MimeOfSplit(rest, Split(rest, ';'));
    }
  }

  /** Putting an untyped segment in front shifts the first typed index by one. */
  lemma FirstTypedShift(p: string, segments: seq<string>)
    requires !Typed(p)
    ensures FirstTyped([p] + segments).None? <==> FirstTyped(segments).None?
    ensures FirstTyped(segments).Some? ==>
              FirstTyped([p] + segments) == Some(FirstTyped(segments).value + 1)
  {
    assert ([p] + segments)[1..] == segments;
  }

  /** A segment that starts with a slash does not name a type. */
  lemma LeadingSlashRejected()
    ensures MimeType(Some("/html")) == Failure(ContentTypeNotAvailable)
  {
    SplitUnique("/html", ';', ["/html"]);
    assert IndexOf("/html", '/') == 0;
  }
}

=== FILE: sitemap.dfy ===
/** The sitemap `generateSitemap` hands to the XML serializer: one entry per
    registry key, in key order, and the number of entries. */
module Sitemap {
  import opened Frontier

  /** Change frequencies of the sitemap protocol. */
  datatype ChangeFreq = Always | Hourly | Daily | Weekly | Monthly | Yearly | Never

  /** An entry priority, in tenths; the JavaScript code's `0.8` is `Tenths(8)`. */
  datatype Priority = Tenths(n: nat)

  const EntryPriority: Priority := Tenths(8)

  /** The cache purge period handed to the serializer, in milliseconds (10 minutes). */
  const CacheTime: nat := 600000

  datatype Entry = Entry(url: string, changefreq: ChangeFreq, priority: Priority)

  /** The in-memory sitemap: host name (the root url), cache time and entries. */
  datatype Document = Document(hostname: string, cacheTime: nat, urls: seq<Entry>)

  /** The entries pushed by the `for..in` loop over the registry keys. */
  function Entries(keys: seq<string>): (es: seq<Entry>)
    ensures |es| == |keys|
    ensures forall i :: 0 <= i < |es| ==>
              es[i].url == keys[i] && es[i].changefreq == Weekly && es[i].priority == EntryPriority
    decreases |keys|
  {
    if |keys| == 0 then []
    else Entries(keys[..|keys| - 1]) + [Entry(keys[|keys| - 1], Weekly, EntryPriority)]
  }

  /** The document built from the final registry. */
  function Assemble(rootUrl: string, reg: Registry): (doc: Document)
    ensures doc.hostname == rootUrl && doc.cacheTime == CacheTime
    ensures |doc.urls| == |reg.order|
    ensures forall i :: 0 <= i < |reg.order| ==> doc.urls[i] == Entry(reg.order[i], Weekly, EntryPriority)
    ensures Valid(reg) ==> |doc.urls| == |reg.status|
    ensures forall k :: k in reg.order <==> exists i :: 0 <= i < |doc.urls| && doc.urls[i].url == k
  {
    var doc := Document(rootUrl, CacheTime, Entries(reg.order));
    assert Valid(reg) ==> |reg.status| == |reg.order| by {
      if Valid(reg) {
        RegistrySize(reg);
      }
    }
    assert forall k :: k in reg.order ==> exists i :: 0 <= i < |doc.urls| && doc.urls[i].url == k by {
      forall k | k in reg.order
        ensures exists i :: 0 <= i < |doc.urls| && doc.urls[i].url == k
      {
        var i :| 0 <= i < |reg.order| && reg.order[i] == k;
        assert doc.urls[i].url == k;
      }
    }
    doc
  }

  /** `generateSitemap`: the loop form of `Assemble`. It builds the document
      entry by entry and counts the entries; the count is the number of
      registry keys. `Crawler.Finish` uses `Assemble` and its length, which
      this method computes alike. */
  method Generate(rootUrl: string, reg: Registry) returns (doc: Document, count: nat)
    ensures doc == Assemble(rootUrl, reg)
    ensures count == |reg.order|
    ensures Valid(reg) ==> count == |reg.status|
  {
    var entries: seq<Entry> := [];
    count := 0;
    for i := 0 to |reg.order|
      invariant entries == Entries(reg.order[..i])
      invariant count == i
    {
      assert reg.order[..i + 1][..i] == reg.order[..i];
      entries := entries + [Entry(reg.order[i], Weekly, EntryPriority)];
      count := count + 1;
    }
    assert reg.order[..|reg.order|] == reg.order;
    doc := Document(rootUrl, CacheTime, entries);
    if Valid(reg) {
      RegistrySize(reg);
    }
  }
}

=== FILE: strings.dfy ===
/** The JavaScript string primitives the crawler relies on:
    `indexOf` of a single character, `split` on a one-character separator,
    its inverse `join`, and `trim`. */
module Strings {

  /** Characters removed by `String.prototype.trim`: the ECMAScript WhiteSpace
      and LineTerminator productions (section 12.2 and 12.3 of ECMA-262). */
  predicate IsTrimmable(c: char) {
    || ('\t' <= c <= '\r')  // tab, line feed, vertical tab, form feed, carriage return
    || c == ' ' || c == '\U{00A0}' || c == '\U{1680}'
    || ('\U{2000}' <= c <= '\U{200A}')
    || c == '\U{2028}' || c == '\U{2029}' || c == '\U{202F}' || c == '\U{205F}'
    || c == '\U{3000}' || c == '\U{FEFF}'
  }

  /** `s.indexOf(c)`: the first position of `c`, or -1 when it does not occur. */
  function IndexOf(s: string, c: char): (r: int)
    ensures r == -1 <==> c !in s
    ensures r != -1 ==> 0 <= r < |s| && s[r] == c && c !in s[..r]
  {
    if |s| == 0 then -1
    else if s[0] == c then 0
    else
      var k := IndexOf(s[1..], c);
      if k == -1 then -1
      else
        assert s[..k + 1] == [s[0]] + s[1..][..k];
        k + 1
  }

  /** `parts.join(d)`; the empty list joins to the empty string. */
  function Join(parts: seq<string>, d: char): string
  {
    if |parts| == 0 then ""
    else if |parts| == 1 then parts[0]
    else parts[0] + [d] + Join(parts[1..], d)
  }

  /** `s.split(d)`: the maximal separator-free pieces of `s`, in order.
      Like JavaScript, the empty string splits into one empty piece. */
  function Split(s: string, d: char): (parts: seq<string>)
    ensures |parts| >= 1
    ensures forall i :: 0 <= i < |parts| ==> d !in parts[i]
    ensures Join(parts, d) == s
    decreases |s|
  {
    var i := IndexOf(s, d);
    if i == -1 then [s]
    else
      var rest := Split(s[i + 1..], d);
      var parts := [s[..i]] + rest;
      assert parts[1..] == rest;
      assert s == s[..i] + [d] + s[i + 1..];
      parts
  }

  /** Splitting is the only way to cut `s` into separator-free pieces that
      join back to `s`: `Split` and `Join` are mutually inverse. */
  lemma {:induction false} SplitUnique(s: string, d: char, parts: seq<string>)
    requires |parts| >= 1
    requires forall i :: 0 <= i < |parts| ==> d !in parts[i]
    requires Join(parts, d) == s
    ensures Split(s, d) == parts
    decreases |parts|
  {
    if |parts| == 1 {
      assert s == parts[0];
    } else {
      var p := parts[0];
      var rest := parts[1..];
      assert s == p + [d] + Join(rest, d);
      assert s[..|p|] == p;
      assert s[|p| + 1..] == Join(rest, d);
      assert s[|p|] == d;
      var i := IndexOf(s, d);
      assert i == |p|;
      forall j | 0 <= j < |rest|
        ensures d !in rest[j]
      {
        assert rest[j] == parts[j + 1];
      }
      SplitUnique(s[|p| + 1..], d, rest);
      assert parts == [p] + rest;
    }
  }

  /** `s` with its leading trimmable characters removed. */
  function TrimStart(s: string): (r: string)
    ensures |r| <= |s| && r == s[|s| - |r|..]
    ensures forall i :: 0 <= i < |s| - |r| ==> IsTrimmable(s[i])
    ensures |r| > 0 ==> !IsTrimmable(r[0])
    decreases |s|
  {
    if |s| > 0 && IsTrimmable(s[0]) then
      var r := TrimStart(s[1..]);
      assert forall i :: 1 <= i < |s| - |r| ==> s[i] == s[1..][i - 1];
      r
    else s
  }

  /** `s` with its trailing trimmable characters removed. */
  function TrimEnd(s: string): (r: string)
    ensures |r| <= |s| && r == s[..|r|]
    ensures forall i :: |r| <= i < |s| ==> IsTrimmable(s[i])
    ensures |r| > 0 ==> !IsTrimmable(r[|r| - 1])
    decreases |s|
  {
    if |s| > 0 && IsTrimmable(s[|s| - 1]) then
      var r := TrimEnd(s[..|s| - 1]);
      assert forall i :: |r| <= i < |s| - 1 ==> s[i] == s[..|s| - 1][i];
      r
    else s
  }

  /** `s.trim()`: the unique slice of `s` obtained by dropping trimmable
      characters at both ends and nothing else. */
  function Trim(s: string): (r: string)
    ensures exists lo :: TrimmedAt(s, lo, r)
    ensures |r| > 0 ==> !IsTrimmable(r[0]) && !IsTrimmable(r[|r| - 1])
  {
    var t := TrimStart(s);
    var r := TrimEnd(t);
    TrimBothEnds(s, |s| - |t|, t, r);
    assert |r| > 0 ==> r[0] == t[0];
    r
  }

  /** Trimming a suffix of `s` at its end yields a slice of `s` with
      trimmable characters on both sides. */
  lemma TrimBothEnds(s: string, lo: nat, t: string, r: string)
    requires lo <= |s| && t == s[lo..]
    requires forall i :: 0 <= i < lo ==> IsTrimmable(s[i])
    requires |r| <= |t| && r == t[..|r|]
    requires forall i :: |r| <= i < |t| ==> IsTrimmable(t[i])
    ensures TrimmedAt(s, lo, r)
  {
    assert r == s[lo..lo + |r|];
    forall i | lo + |r| <= i < |s|
      ensures IsTrimmable(s[i])
    {
      assert s[i] == t[i - lo];
    }
  }

  /** `r` is `s[lo..lo + |r|]` and every character of `s` outside that slice is trimmable. */
  ghost predicate TrimmedAt(s: string, lo: int, r: string) {
    && 0 <= lo <= lo + |r| <= |s|
    && r == s[lo..lo + |r|]
    && (forall i :: 0 <= i < lo ==> IsTrimmable(s[i]))
    && (forall i :: lo + |r| <= i < |s| ==> IsTrimmable(s[i]))
  }

  /** Trimming adds no character. */
  lemma TrimOnlyRemoves(s: string, c: char)
    requires c in Trim(s)
    ensures c in s
  {
    var r := Trim(s);
    var lo :| TrimmedAt(s, lo, r);
    var i :| 0 <= i < |r| && r[i] == c;
    assert s[lo + i] == c;
  }

  /** Trimming keeps every character that is not white space. */
  lemma TrimKeeps(s: string, c: char)
    requires c in s && !IsTrimmable(c)
    ensures c in Trim(s)
  {
    var r := Trim(s);
    var lo :| TrimmedAt(s, lo, r);
    SliceKeeps(s, lo, r, c);
  }

  /** A slice with only trimmable characters outside it holds every
      non-trimmable character of `s`. */
  lemma SliceKeeps(s: string, lo: int, r: string, c: char)
    requires TrimmedAt(s, lo, r) && c in s && !IsTrimmable(c)
    ensures c in r
  {
    var i :| 0 <= i < |s| && s[i] == c;
    assert lo <= i < lo + |r|;
    assert r[i - lo] == c;
  }
}

=== FILE: urls.dfy ===
/** URL handling of the crawler: the results of Node's `url.parse` and
    `url.resolve`, the crawl root taken from the starting URL, and the
    classification of a discovered link against that root. */
module Urls {
  import opened Wrappers

  /** The fields of a `url.parse` result the crawler reads; `None` is `null`. */
  datatype ParsedUrl = ParsedUrl(
    protocol: Option<string>,
    host: Option<string>,      // host name and port, as in `example.com:8080`
    hostname: Option<string>,  // host name alone
    port: Option<string>,
    path: Option<string>)

  /** Node's `url.parse` and `url.resolve`. Their internals are not part of
      this model: any pair of total functions may be supplied. */
  datatype UrlLib = UrlLib(parse: string -> ParsedUrl, resolve: (string, string) -> string)

  /** JavaScript truthiness of an optional string field: present and non-empty. */
  predicate Truthy(field: Option<string>) {
    field.Some? && field.value != ""
  }

  /** What the crawler keeps of its starting URL: the raw string (the base for
      relative links and the sitemap host name) and the host name, port and
      path the HEAD probe is sent to. */
  datatype Root = Root(url: string, hostname: Option<string>, port: Option<string>, path: Option<string>)

  /** The root context built from a starting URL and its parse. */
  function RootOf(url0: string, parsed: ParsedUrl): (root: Root)
    ensures root.url == url0
  {
    Root(url0, parsed.hostname, parsed.port, parsed.path)
  }

  /** How `parseURL` treats one discovered link. */
  datatype LinkKind = SameHost | Relative | External

  /** A link is same-host when its parsed `host` equals the root's host NAME
      (so a link carrying a port never matches); otherwise it is relative when
      it has neither protocol nor host; everything else is external. */
  function Classify(lib: UrlLib, root: Root, link: string): LinkKind {
    var u := lib.parse(link);
    if u.host == root.hostname then SameHost
    else if !Truthy(u.protocol) && !Truthy(u.host) then Relative
    else External
  }

  /** The registry key a discovered link contributes: a same-host link as it
      was found, a relative link resolved against the ROOT url (not against the
      page it was found on), an external link nothing. */
  function Target(lib: UrlLib, root: Root, link: string): (key: Option<string>)
    ensures key.None? <==> Classify(lib, root, link) == External
  {
    match Classify(lib, root, link)
    case SameHost => Some(link)
    case Relative => Some(lib.resolve(root.url, link))
    case External => None
  }

  /** Because `host` is compared with the root's host name, an absolute link
      that spells out a port is dropped, even when the root itself was given
      with that same port. */
  lemma PortedLinkDropped(lib: UrlLib, root: Root, link: string, name: string, port: string)
    requires root.hostname == Some(name)
    requires lib.parse(link).host == Some(name + [':'] + port)
    ensures Target(lib, root, link) == None
  {
    assert |name + [':'] + port| > |name|;
  }
}

=== FILE: wrappers.dfy ===
/** `Option` and `Result`, shared by the whole model. */
module Wrappers {

  /** A value that may be absent; `None` stands for JavaScript's `null`/`undefined`. */
  datatype Option<+T> = None | Some(value: T)

  /** The outcome of an operation that can fail with an error value. */
  datatype Result<+R, +E> = Success(value: R) | Failure(error: E)
}
